=== FILE: README.md ===
# shorter — a Dafny model of the link store

`shorter` is a URL shortener. It maps short identifiers (slugs) to target
URLs and redirects a slug to its URL. This project models its link store.
The store is a flat table from slug to URL, plus the rules that guard the
table:

- slugs must match `^[a-zA-Z0-9_-]{3,32}$`;
- user input is normalised into an absolute `http(s)` URL;
- a slug drawn at random is regenerated until it is not already taken;
- a stored document that is corrupt, or not an object, reads as the empty table;
- create, update and delete answer 400, 404 or 409 for bad requests.

The store is modelled in both places the repository implements it:

- the Next.js application: the shared helpers in `lib/storage.js` and the
  authenticated API route in `pages/api/links.js`. Each request loads the
  table from storage and saves the next table;
- the legacy Express server in `server.js`. It has its own copies of the
  helpers, a create endpoint, and a redirect resolver. Its table lives in
  memory as `linkStore`.

Everything is written as pure functions over immutable values. The exception is the listings (`LinkStore.Entries`, `Api.ListBody`, `Server.ListLinks`). They are methods, because the order of the list is an arbitrary choice:

| Dafny module (file) | models |
|---|---|
| `Wrappers` (wrappers.dfy) | `Option`, standing in for `null` results |
| `Text` (text.dfy) | `String.prototype.trim`, and the ASCII case folding of a regular expression with the `i` flag |
| `Storage` (storage.dfy) | lib/storage.js: `isValidSlug`, `normalizeUrl`, `generateSlug`, `loadLinks`, `saveLinks` |
| `Requests` (requests.dfy) | how the handlers read the `url` and `slug` fields of a JSON body |
| `LinkStore` (linkstore.dfy) | the table-level decision of each operation: `(table, arguments) -> (response, table handed to saveLinks)`, plus multi-step properties |
| `Api` (api.dfy) | pages/api/links.js: `withAuth`, `getList`, `createLink`, `updateLink`, `deleteLink`, `handler` |
| `Server` (server.dfy) | server.js: its `loadLinks`, `saveLinks`, `normalizeUrl`, `isValidSlug`, `POST /api/shorten`, `GET /:slug`, `GET /api/links`, start-up |

Foreign pieces are parameters, not code:

- **URL parser.** `new URL(s).toString()` is an arbitrary finite table
  `UrlParser = map<string, string>`, read through `Storage.Parse`. A string
  the table does not hold stands for the constructor throwing.
- **Random slugs.** `nanoid(6)` is the sequence `draws` of the values it
  would return, in order. `IsNanoId` says what one such value looks like.
- **Stored file.** `JSON.parse` of the stored file is a `Document`: `Missing`,
  `Unparsable`, `NonObject`, or `Object(links)`.
- **Writes.** Whether a write succeeds is a `WriteOutcome` parameter.

Responses keep only the status code and the returned slug and URL. `Threw`
stands for a handler whose promise rejected because its write failed.

Slug presence is plain map membership.

Each create endpoint is written in two layers. `Api.CreateLink` and
`Server.Shorten` read the body. `Api.CreateFromFields` and
`Server.ShortenFromFields` decide on the trimmed `url` text and the trimmed
requested slug.

## Model

| member | source | states |
|---|---|---|
| `Text.Trim` | pages/api/links.js:23 | `trim` removes exactly the leading and trailing run of ECMAScript whitespace. The result is an infix of the input, everything cut away is whitespace, and a non-empty result neither starts nor ends with whitespace. It is empty exactly when the input is all whitespace |
| `Text.TrimIdempotent` | pages/api/links.js:42 | a trimmed field trims to itself |
| `Requests.StringField` | pages/api/links.js:23 | a field read with `typeof v === 'string' ? v.trim() : ''` is the trimmed string for a string field. It is empty exactly when it is not a string or is all whitespace. A non-empty result neither starts nor ends with whitespace |
| `Requests.CoercedField` | pages/api/links.js:27 | a field read with `v ? String(v).trim() : ''` is empty when absent or falsy. A string reads as `Requests.StringField` reads it. Another truthy value reads as its text, trimmed, and is empty exactly when that text is all whitespace. A non-empty result neither starts nor ends with whitespace |
| `Storage.ClassRepeatMeaning` | lib/storage.js:46 | the step-by-step match of `[a-zA-Z0-9_-]{min,max}$` against a whole string holds exactly when the length is within `min..max` and every character is in the class |
| `Storage.IsValidSlug` | lib/storage.js:46 | `isValidSlug(s)` is true exactly when `3 <= \|s\| <= 32` and every character of `s` is in `A–Z a–z 0–9 _ -` |
| `Storage.WholeStringOnly` | lib/storage.js:46 | the pattern is anchored at both ends: a valid slug with one out-of-class character added at either end is invalid |
| `Storage.WithProtocol` | lib/storage.js:38 | the string given to the parser always starts with `http://` or `https://` (letters in any case). It equals the input exactly when the input already had such a prefix; otherwise it is the input behind `https://`. The input is always a suffix of it |
| `Storage.WithProtocolIdempotent` | lib/storage.js:38 | `https://` is never added twice |
| `Storage.NormalizeUrl` | lib/storage.js:35-44 | empty input gives null. Input with an http(s) prefix goes to the parser unchanged; any other input goes with `https://` in front. The result is null exactly when the input is empty or the parser throws; otherwise it is the parser's canonical string |
| `Storage.GenerateSlug` | lib/storage.js:48-54 | a returned slug is the first draw that is not a key of `existing`: every draw before it is taken. Nothing is returned only when every draw is taken. When every draw is a nanoid, the slug is a valid six-character slug |
| `Storage.LoadLinks` | lib/storage.js:17-28 | an object document reads as its table and is left alone. Any other document reads as `{}`. A missing or unparsable document is rewritten as `{}`, a non-object one is kept, and afterwards the document is always an object or a non-object value |
| `Storage.LoadLinksSettles` | lib/storage.js:20-26 | after one load, loading again reads the same table and writes nothing |
| `Storage.SaveLinks` | lib/storage.js:30-33 | a successful save replaces the document with the whole table and resolves to that same table. A failed write rejects and leaves the document as it was |
| `Storage.SaveThenLoad` | lib/storage.js:30-33 | at the level of the abstract document, loading after a successful save gives back the saved table and leaves storage as written |
| `LinkStore.Create` | pages/api/links.js:26-37 | a requested slug that fails the pattern gives 400, and one already present gives 409; neither saves anything. Otherwise it succeeds exactly when the requested slug is valid and absent, or, when none was requested, some draw is absent. Success saves `old[slug := url]` for an absent `slug` and answers 201 with that slug and URL. The slug is the requested one, or one of the draws |
| `LinkStore.Update` | pages/api/links.js:47-52 | an absent slug gives 404 and nothing is saved. Otherwise the saved table has the same key set, maps the slug to the new URL, and keeps every other entry |
| `LinkStore.Delete` | pages/api/links.js:60-66 | an absent slug gives 404 and nothing is saved. Otherwise the saved table's keys are the old keys minus exactly that slug, and every remaining entry is unchanged |
| `LinkStore.Resolve` | server.js:89-95 | the lookup redirects exactly when the slug is present, to its stored URL; otherwise it gives 404 |
| `LinkStore.Entries` | pages/api/links.js:17 | the listing has exactly one `(slug, url)` pair per table entry, with no slug twice and every slug present |
| `LinkStore.RemoveAdded` | pages/api/links.js:63-64 | removing a key just added to a table that lacked it gives back the original table |
| `LinkStore.CreatePreservesWellFormed` | pages/api/links.js:27-35 | create keeps every key a valid slug and every URL non-empty, provided the URL is non-empty and every draw is a nanoid |
| `LinkStore.UpdatePreservesWellFormed` | pages/api/links.js:47-51 | update keeps the table well formed |
| `LinkStore.DeletePreservesWellFormed` | pages/api/links.js:60-65 | delete keeps the table well formed |
| `LinkStore.CreateAll` | pages/api/links.js:31-35 | along a run of creates the key set only grows, and every slug handed out is a key of the final table |
| `LinkStore.CreateAllFresh` | lib/storage.js:48-54 | no slug handed out by a run of creates was present before the run |
| `LinkStore.CreateAllDistinct` | pages/api/links.js:27-35 | the slugs handed out by a run of creates are pairwise distinct |
| `Api.WithAuth` | pages/api/links.js:5-13 | a request passes exactly when `AUTH_KEY` is set and non-empty and the `x-api-key` header equals it. A missing key gives 500; a mismatch gives 401 |
| `Api.Commit` | pages/api/links.js:35-37 | when nothing is to be saved, the response stands and the document is as loaded. A successful write stores the next table; a failed one turns the response into a rejection and leaves the document as loaded |
| `Api.GetList` | pages/api/links.js:15-19 | an object of links is listed as it is and the document is left alone. Any other document lists as empty. A missing or unparsable one is repaired to `{}`, and a non-object one is kept |
| `Api.ListBody` | pages/api/links.js:16-18 | the `links` array holds every entry of the loaded table exactly once, each slug with its URL, and nothing else. It is the table `Api.GetList` lists |
| `Api.CreateLink` | pages/api/links.js:22-27 | a `url` field that is not a string, trims to empty, or does not parse is a 400 that leaves storage alone. With no truthy `slug` field (absent, `0`, `false`, `null`), a 201 always carries one of the drawn slugs. A `slug` field that trims to something non-empty is the slug a 201 carries. A usable URL reaches the table-level create over the loaded table, committed with the write's outcome |
| `Api.CreateFromFields` | pages/api/links.js:23-37 | an unusable URL gives 400 before storage is touched. An invalid requested slug gives 400 and a taken one 409; both leave only what the load left. A 201 means the write succeeded, the URL is the normalised one, the slug was absent, and storage holds `loaded[slug := url]`. The slug is the requested one, or one of the draws when none was requested. Anything but a 201 leaves the table a later load reads unchanged |
| `Api.UpdateLink` | pages/api/links.js:40-53 | in order: an empty trimmed slug gives 400, then an unusable URL gives 400, both before storage is touched; then an absent slug gives 404. A present slug with a usable URL gets 200 with that slug and URL when the write succeeds, and a rejection when it fails. A 200 stores `loaded[slug := url]`. The only other answer is a rejected write. Anything else leaves the table unchanged |
| `Api.DeleteLink` | pages/api/links.js:55-67 | an empty trimmed slug gives 400 before storage is touched, and an absent slug gives 404. Success stores the loaded table minus exactly that slug. The only other answer is a rejected write. Anything else leaves the table unchanged |
| `Api.Handler` | pages/api/links.js:69-82 | GET lists the loaded table, POST is `createLink`, PUT is `updateLink`, and DELETE is `deleteLink`. A listing answers only GET, a 201 only POST, an update's 200 only PUT, and `{ ok: true }` only DELETE. Only POST, PUT and DELETE can change the table a later load reads. Any other method gives 405 and touches nothing |
| `Api.Serve` | pages/api/links.js:84 | a request that fails authentication leaves storage alone; one that passes is handled. Only a successful create, update or delete changes the table a later load reads |
| `Api.ServePreservesWellFormed` | pages/api/links.js:84 | a well-formed stored table stays well formed across any request, given nanoid draws |
| `Api.CommitThenLoad` | pages/api/links.js:35-36 | a later load reads the saved next table when the write succeeded, and the loaded table otherwise |
| `Api.CreateLinkPreservesWellFormed` | pages/api/links.js:21-38 | create keeps the stored table well formed |
| `Api.UpdateLinkPreservesWellFormed` | pages/api/links.js:40-53 | update keeps the stored table well formed |
| `Api.DeleteLinkPreservesWellFormed` | pages/api/links.js:55-67 | delete keeps the stored table well formed |
| `Api.CreateFromFieldsUnfolds` | pages/api/links.js:23-37 | with a usable URL, the route's create is the table-level create over the loaded table, then committed |
| `Api.DeleteLinkUnfolds` | pages/api/links.js:55-67 | with a non-empty slug, the route's delete is the table-level delete over the loaded table, then committed |
| `Api.DeleteTwice` | pages/api/links.js:55-67 | after a successful delete, the same request again gives 404 and leaves storage exactly as the first left it |
| `Api.ConflictingCreates` | pages/api/links.js:27-31 | creating with slug `abc` and then again with slug `abc` gives 201 and then 409, and the table keeps the first mapping |
| `Api.ExampleComNormalises` | lib/storage.js:38-40 | `example.com` reaches the parser as `https://example.com` |
| `Api.ValidSlugTrimsToItself` | pages/api/links.js:57 | a valid slug sent as the `slug` field is read back unchanged |
| `Api.CreateExample` | pages/api/links.js:21-38 | assume the parser maps `https://example.com` to `https://example.com/`, every draw is a nanoid, at least one draw is free, and the write succeeds. Then creating `example.com` with no slug stores the parser's output under a fresh, valid, six-character slug |
| `Api.DeleteNamed` | pages/api/links.js:55-67 | deleting a present valid slug by name succeeds and removes exactly that key |
| `Api.EndToEnd` | pages/api/links.js:21-67 | create `example.com` with no slug, resolve it, delete it, then resolve again. The URL gains `https://` and the slug is a fresh six-character slug. The first lookup redirects, the delete gives back exactly the original table, and the last lookup gives 404. The lookups use the table-level `LinkStore.Resolve`, because the Next.js redirect page is not part of this model |
| `Server.LoadLinks` | server.js:25-35 | a missing file becomes `{}`. An unparsable or non-object document reads as `{}` and is not rewritten. An object reads as its table |
| `Server.LoadLinksCopiesAgree` | server.js:28-34 | the two `loadLinks` copies read the same table from every document. They leave different documents exactly when the document is unparsable |
| `Server.Start` | server.js:97-102 | start-up fills `linkStore` with the table the library would read, and leaves the document the server's own load leaves. An object document is taken as is. An unparsable file stays unparsable while `linkStore` starts empty |
| `Server.SaveLinks` | server.js:37-40 | `linkStore` becomes the new table whatever the write does. The file holds it only when the write succeeds |
| `Server.MatchScheme` | server.js:45 | the match is non-null exactly when the library's `test` is true, and the matched text is the seven- or eight-character prefix |
| `Server.NormalizeUrl` | server.js:42-51 | empty input gives null; otherwise the parser sees the input, with `https://` in front unless it already has an http(s) prefix. The result equals the library's for every parser and input |
| `Server.IsValidSlug` | server.js:53 | the same 3–32 characters from `[A-Za-z0-9_-]`, agreeing with the library version on every string |
| `Server.Insert` | server.js:82-86 | `linkStore` gains exactly the slug whatever the write does. A successful write gives 201, and the file then holds the same table. A failed write is a rejection, and the file is as it was |
| `Server.Shorten` | server.js:62-68 | a `url` field that is not a string, trims to empty, or does not parse is a 400 that changes nothing. With no truthy `slug` field, a 201 always carries one of the drawn slugs. A `slug` field that trims to something non-empty is the slug a 201 carries. A usable URL reaches the table-level create over `linkStore`: memory becomes the table that create saves, and a written request gets its response |
| `Server.ShortenFromFields` | server.js:63-86 | an unusable URL gives 400, an invalid requested slug 400, and a taken one 409, all leaving the state unchanged. A 201 means the slug was absent and memory and file both hold `old[slug := url]`. The slug is the requested one, or one of the draws when none was requested. A failed write leaves the file as it was, while `linkStore` already holds the old table plus one new slug |
| `Server.ShortenAgreesWithCreate` | server.js:63-86 | the Express endpoint decides as the table-level create does: the same response when the write succeeds, and `linkStore` becomes the table that create saves |
| `Server.Resolve` | server.js:89-95 | a present slug redirects (301) to its stored URL, and an absent one gives 404 |
| `Server.ListLinks` | server.js:55-59 | the `links` array holds every entry of `linkStore` as held in memory exactly once, each slug with its URL, and nothing else. No load happens |
| `Server.ShortenThenResolve` | server.js:89-95 | a slug handed out by a written shorten resolves to its normalised URL |

## Left out

- pages/index.js (the React page) and pages/[slug].js (the Next.js redirect page) are not part of this model. They are UI and routing around `loadLinks`.
- Filesystem effects are left out: `mkdir`, `access`, `readFile`, and failures of the writes inside `loadLinks`. Storage is one abstract `Document`. A failed `saveLinks` write is taken to leave the previous document; a partly written file is not modelled.
- `JSON.parse` and `JSON.stringify` are foreign. No serialisation round trip is claimed. Objects whose values are not strings are not modelled. Arrays, which the object test in `loadLinks` lets through, are not modelled either.
- WHATWG URL parsing and canonicalisation are left uninterpreted, as the `UrlParser` parameter. No host or path normalisation is modelled.
- Storage.Parse: the parser is a finite table, so only finitely many strings parse in any one model. Every property is stated for every such table.
- Storage.GenerateSlug: sees only the finite sequence of draws given to it. Past that sequence the real do-while loop keeps drawing, because it only ends with probability one. The model answers `NoFreshDraw` there, and so do `LinkStore.Create`, `Api.CreateFromFields` and `Server.ShortenFromFields`.
- Concurrency is left out. Each route handler loads, decides and saves without a lock, so concurrent requests can lose updates. No interleavings are modelled.
- JavaScript truthiness and prototype lookups in `links[slug]` are left out. Presence is map membership, so a key mapped to `""` counts as present, and inherited names such as `constructor` count as absent.
- Express and Next.js plumbing is left out: routing, static files, `listen`, `PORT`, error messages, and the `shortUrl` field. A rejected handler promise is the single `Threw` response. Next.js turns it into an error response. The Express route does not handle the rejection, and what happens next depends on the Express and Node versions, which the repository does not fix.
- The listing's order is the engine's enumeration order. `LinkStore.Entries` picks keys in an arbitrary order.

Three behaviours of the code to note:

- there is no rollback of a failed write. In `server.js` the memory is ahead of the file after a failed write, for as long as the process keeps running (`Server.SaveLinks`, `Server.ShortenFromFields`);
- there is no table-wide lock;
- the library `loadLinks` itself rewrites an unparsable document as `{}`, while the server copy does not.

=== FILE: api.dfy ===
/** The Next.js API route (pages/api/links.js): every request is checked
    against the configured API key, then dispatched on its method to list,
    create, update or delete. Each mutating handler validates, loads the
    table from storage, decides, and saves the next table. */
module Api {

  import opened Wrappers
  import opened Storage
  import opened Text
  import opened Requests
  import opened LinkStore

  /** The request as the route sees it: HTTP method, `x-api-key` header, body. */
  datatype Request = Request(verb: string, apiKey: Option<string>, body: Body)

  /** What a request meets from outside the route: the `AUTH_KEY` setting,
      the URL parser, the values `nanoid(6)` would yield, and whether the
      write to storage succeeds. */
  datatype Context = Context(authKey: Option<string>, parser: UrlParser, draws: seq<string>, write: WriteOutcome)

  /** A response together with the stored document afterwards. */
  datatype Served = Served(resp: Response, disk: Document)

  /** `withAuth`: None lets the request through to the handler. A missing or
      empty `AUTH_KEY` is a 500; a header that differs from it is a 401. */
  function WithAuth(authKey: Option<string>, apiKey: Option<string>): (r: Option<Response>)
    ensures r.None? <==> authKey.Some? && authKey.value != [] && apiKey == authKey
    ensures authKey.None? || authKey.value == [] ==> r == Some(Rejected(500))
    ensures authKey.Some? && authKey.value != [] && apiKey != authKey ==> r == Some(Rejected(401))
  {
    if authKey.None? || authKey.value == [] then Some(Rejected(500))
    else if apiKey != authKey then Some(Rejected(401))
    else None
  }

  /** Saves the outcome's next table, if any, over the document as loaded. A
      failed write makes the handler's `await saveLinks(...)` reject. */
  function Commit(o: Outcome, loaded: Loaded, w: WriteOutcome): (s: Served)
    ensures o.next.None? ==> s == Served(o.resp, loaded.disk)
    ensures o.next.Some? && w == Written ==> s == Served(o.resp, Object(o.next.value))
    ensures o.next.Some? && w == WriteFailed ==> s == Served(Threw, loaded.disk)
  {
    match o.next
    case None => Served(o.resp, loaded.disk)
    case Some(next) =>
      var saved := SaveLinks(next, loaded.disk, w);
      Served(if saved.returned.Some? then o.resp else Threw, saved.disk)
  }

  /** The URL a create or update request carries, normalised. */
  function RequestUrl(ctx: Context, body: Body): Option<string> {
    NormalizeUrl(ctx.parser, StringField(body.url))
  }

  /** `getList`: the whole table as loaded. An object of links is listed as
      it is and left alone; anything else lists as empty, and a missing or
      unparsable document is repaired to `{}` on the way. */
  function GetList(disk: Document): (s: Served)
    ensures disk.Object? ==> s == Served(Listed(disk.links), disk)
    ensures !disk.Object? ==> s.resp == Listed(map[])
    ensures disk.Missing? || disk.Unparsable? ==> s.disk == Object(map[])
    ensures disk.NonObject? ==> s.disk == disk
  {
    var loaded := LoadLinks(disk);
    Served(Listed(loaded.links), loaded.disk)
  }

  /** The `links` array `getList` sends: `Object.entries` of the loaded table
      as `{ slug, url }` pairs, every entry exactly once, next to the
      document the load left. */
  method ListBody(disk: Document) returns (list: seq<(string, string)>, after: Document)
    ensures GetList(disk) == Served(Listed(LoadLinks(disk).links), after)
    ensures |list| == |LoadLinks(disk).links|
    ensures forall i :: 0 <= i < |list| ==> list[i].0 in LoadLinks(disk).links && list[i].1 == LoadLinks(disk).links[list[i].0]
    ensures forall i, j :: 0 <= i < j < |list| ==> list[i].0 != list[j].0
    ensures forall k :: k in LoadLinks(disk).links ==> exists i :: 0 <= i < |list| && list[i].0 == k
  {
    var loaded := LoadLinks(disk);
    list := Entries(loaded.links);
    after := loaded.disk;
  }

  /** `createLink` once the body has been read: `urlText` is the trimmed
      `url` field and `slug` the trimmed requested slug, empty when none was
      given. An unusable URL is a 400 before storage is touched. A requested
      slug that fails the pattern (400) or is taken (409) saves nothing.
      Success saves the old table plus exactly the new slug, which was
      absent, and answers 201 with that slug and URL. */
  function CreateFromFields(ctx: Context, disk: Document, urlText: string, slug: string): (s: Served)
    ensures !Truthy(NormalizeUrl(ctx.parser, urlText)) ==> s == Served(Rejected(400), disk)
    ensures Truthy(NormalizeUrl(ctx.parser, urlText)) ==> s.disk == LoadLinks(disk).disk || s.resp.Created?
    ensures Truthy(NormalizeUrl(ctx.parser, urlText)) && slug != [] && !IsValidSlug(slug) ==>
              s == Served(Rejected(400), LoadLinks(disk).disk)
    ensures Truthy(NormalizeUrl(ctx.parser, urlText)) && slug != [] && IsValidSlug(slug) && slug in LoadLinks(disk).links ==>
              s == Served(Rejected(409), LoadLinks(disk).disk)
    ensures s.resp.Created? ==>
              && ctx.write == Written
              && NormalizeUrl(ctx.parser, urlText) == Some(s.resp.url)
              && s.resp.slug !in LoadLinks(disk).links
              && s.disk == Object(LoadLinks(disk).links[s.resp.slug := s.resp.url])
    ensures s.resp.Created? && slug != [] ==> s.resp.slug == slug
    ensures s.resp.Created? && slug == [] ==> s.resp.slug in ctx.draws
    ensures s.resp.Created? || s.resp.Rejected? || s.resp.Threw? || s.resp.NoFreshDraw?
    ensures !s.resp.Created? ==> LoadLinks(s.disk).links == LoadLinks(disk).links
  {
    var url := NormalizeUrl(ctx.parser, urlText);
    if !Truthy(url) then Served(Rejected(400), disk)
    else
      var loaded := LoadLinks(disk);
      Commit(Create(loaded.links, url.value, slug, ctx.draws), loaded, ctx.write)
  }

  /** `createLink`: the `url` field counts only when it is a string, while
      any truthy `slug` is turned into text. So a body whose URL is not a
      string is a 400 that touches nothing, and a body without a truthy slug
      can only succeed with a drawn slug. A usable URL reaches the
      table-level create over the loaded table, committed. */
  function CreateLink(ctx: Context, disk: Document, body: Body): (s: Served)
    ensures !body.url.Str? ==> s == Served(Rejected(400), disk)
    ensures !Truthy(RequestUrl(ctx, body)) ==> s == Served(Rejected(400), disk)
    ensures (body.slug.Undefined? || body.slug.FalsyValue?) && s.resp.Created? ==> s.resp.slug in ctx.draws
    ensures CoercedField(body.slug) != [] && s.resp.Created? ==> s.resp.slug == CoercedField(body.slug)
    ensures Truthy(RequestUrl(ctx, body)) ==>
              s == Commit(Create(LoadLinks(disk).links, RequestUrl(ctx, body).value, CoercedField(body.slug), ctx.draws), LoadLinks(disk), ctx.write)
  {
    CreateFromFields(ctx, disk, StringField(body.url), CoercedField(body.slug))
  }

  /** `updateLink`, checking in order: an empty slug (400), an unusable URL
      (400), both before storage is touched; then an absent slug (404).
      Success keeps the key set and changes only that slug's URL. */
  function UpdateLink(ctx: Context, disk: Document, body: Body): (s: Served)
    ensures StringField(body.slug) == [] ==> s == Served(Rejected(400), disk)
    ensures !Truthy(RequestUrl(ctx, body)) ==> s == Served(Rejected(400), disk)
    ensures var slug := StringField(body.slug);
            slug != [] && Truthy(RequestUrl(ctx, body)) && slug !in LoadLinks(disk).links ==>
              s == Served(Rejected(404), LoadLinks(disk).disk)
    ensures s.resp.Updated? ==>
              && ctx.write == Written
              && s.resp.slug == StringField(body.slug)
              && RequestUrl(ctx, body) == Some(s.resp.url)
              && s.resp.slug in LoadLinks(disk).links
              && s.disk == Object(LoadLinks(disk).links[s.resp.slug := s.resp.url])
    ensures var slug := StringField(body.slug);
            slug != [] && Truthy(RequestUrl(ctx, body)) && slug in LoadLinks(disk).links ==>
              s.resp == (if ctx.write == Written then Updated(slug, RequestUrl(ctx, body).value) else Threw)
    ensures s.resp.Updated? || s.resp.Rejected? || s.resp.Threw?
    ensures !s.resp.Updated? ==> LoadLinks(s.disk).links == LoadLinks(disk).links
  {
    var slug := StringField(body.slug);
    var url := RequestUrl(ctx, body);
    if slug == [] then Served(Rejected(400), disk)
    else if !Truthy(url) then Served(Rejected(400), disk)
    else
      var loaded := LoadLinks(disk);
      Commit(Update(loaded.links, slug, url.value), loaded, ctx.write)
  }

  /** `deleteLink`: an empty slug is a 400 before storage is touched, an
      absent one a 404; success saves the table minus exactly that key. */
  function DeleteLink(ctx: Context, disk: Document, body: Body): (s: Served)
    ensures StringField(body.slug) == [] ==> s == Served(Rejected(400), disk)
    ensures var slug := StringField(body.slug);
            slug != [] && slug !in LoadLinks(disk).links ==> s == Served(Rejected(404), LoadLinks(disk).disk)
    ensures s.resp == Removed ==>
              && ctx.write == Written
              && StringField(body.slug) in LoadLinks(disk).links
              && s.disk == Object(LoadLinks(disk).links - {StringField(body.slug)})
    ensures s.resp.Removed? || s.resp.Rejected? || s.resp.Threw?
    ensures s.resp != Removed ==> LoadLinks(s.disk).links == LoadLinks(disk).links
  {
    var slug := StringField(body.slug);
    if slug == [] then Served(Rejected(400), disk)
    else
      var loaded := LoadLinks(disk);
      Commit(Delete(loaded.links, slug), loaded, ctx.write)
  }

  /** `handler`: GET lists, POST creates, PUT updates, DELETE deletes, and
      any other method is a 405 that touches nothing. Each success answer
      comes from its own method, and only those three methods can change the
      table a later load reads. */
  function Handler(ctx: Context, disk: Document, req: Request): (s: Served)
    ensures req.verb !in {"GET", "POST", "PUT", "DELETE"} ==> s == Served(Rejected(405), disk)
    ensures req.verb == "GET" ==> s.resp == Listed(LoadLinks(disk).links)
    ensures req.verb == "POST" ==> s == CreateLink(ctx, disk, req.body)
    ensures req.verb == "PUT" ==> s == UpdateLink(ctx, disk, req.body)
    ensures req.verb == "DELETE" ==> s == DeleteLink(ctx, disk, req.body)
    ensures s.resp.Listed? ==> req.verb == "GET"
    ensures s.resp.Created? ==> req.verb == "POST"
    ensures s.resp.Updated? ==> req.verb == "PUT"
    ensures s.resp == Removed ==> req.verb == "DELETE"
    ensures req.verb !in {"POST", "PUT", "DELETE"} ==> LoadLinks(s.disk).links == LoadLinks(disk).links
  {
    if req.verb == "GET" then GetList(disk)
    else if req.verb == "POST" then CreateLink(ctx, disk, req.body)
    else if req.verb == "PUT" then UpdateLink(ctx, disk, req.body)
    else if req.verb == "DELETE" then DeleteLink(ctx, disk, req.body)
    else Served(Rejected(405), disk)
  }

  /** The exported route, `withAuth(handler)`. A request reaches the handler
      only with a configured key that the header matches; otherwise storage
      is left alone. Whatever happens, only a create, update or delete that
      answers success changes the table a later load reads. */
  function Serve(ctx: Context, disk: Document, req: Request): (s: Served)
    ensures WithAuth(ctx.authKey, req.apiKey).Some? ==> s == Served(WithAuth(ctx.authKey, req.apiKey).value, disk)
    ensures WithAuth(ctx.authKey, req.apiKey).None? ==> s == Handler(ctx, disk, req)
    ensures !(s.resp.Created? || s.resp.Updated? || s.resp == Removed) ==> LoadLinks(s.disk).links == LoadLinks(disk).links
  {
    match WithAuth(ctx.authKey, req.apiKey)
    case Some(refusal) => Served(refusal, disk)
    case None => Handler(ctx, disk, req)
  }

  // ---------------------------------------------------------------------
  // Properties over requests
  // ---------------------------------------------------------------------

  /** A stored table that is well formed stays so across any request, given
      that `nanoid(6)` only yields nanoids. */
  lemma ServePreservesWellFormed(ctx: Context, disk: Document, req: Request)
    requires WellFormed(LoadLinks(disk).links)
    requires forall j :: 0 <= j < |ctx.draws| ==> IsNanoId(ctx.draws[j])
    ensures WellFormed(LoadLinks(Serve(ctx, disk, req).disk).links)
  {
    if WithAuth(ctx.authKey, req.apiKey).None? {
      if req.verb == "POST" {
        CreateLinkPreservesWellFormed(ctx, disk, req.body);
      } else if req.verb == "PUT" {
        UpdateLinkPreservesWellFormed(ctx, disk, req.body);
      } else if req.verb == "DELETE" {
        DeleteLinkPreservesWellFormed(ctx, disk, req.body);
      }
    }
  }

  /** What a later load reads after an outcome is committed over a load. */
  lemma CommitThenLoad(o: Outcome, disk: Document, w: WriteOutcome)
    ensures LoadLinks(Commit(o, LoadLinks(disk), w).disk).links
              == if w == Written then After(o, LoadLinks(disk).links) else LoadLinks(disk).links
  {
  }

  lemma CreateLinkPreservesWellFormed(ctx: Context, disk: Document, body: Body)
    requires WellFormed(LoadLinks(disk).links)
    requires forall j :: 0 <= j < |ctx.draws| ==> IsNanoId(ctx.draws[j])
    ensures WellFormed(LoadLinks(CreateLink(ctx, disk, body).disk).links)
  {
    var url := RequestUrl(ctx, body);
    if Truthy(url) {
      var o := Create(LoadLinks(disk).links, url.value, CoercedField(body.slug), ctx.draws);
      CreatePreservesWellFormed(LoadLinks(disk).links, url.value, CoercedField(body.slug), ctx.draws);
      CommitThenLoad(o, disk, ctx.write);
    }
  }

  lemma UpdateLinkPreservesWellFormed(ctx: Context, disk: Document, body: Body)
    requires WellFormed(LoadLinks(disk).links)
    ensures WellFormed(LoadLinks(UpdateLink(ctx, disk, body).disk).links)
  {
    var url := RequestUrl(ctx, body);
    var slug := StringField(body.slug);
    if slug != [] && Truthy(url) {
      UpdatePreservesWellFormed(LoadLinks(disk).links, slug, url.value);
      CommitThenLoad(Update(LoadLinks(disk).links, slug, url.value), disk, ctx.write);
    }
  }

  lemma DeleteLinkPreservesWellFormed(ctx: Context, disk: Document, body: Body)
    requires WellFormed(LoadLinks(disk).links)
    ensures WellFormed(LoadLinks(DeleteLink(ctx, disk, body).disk).links)
  {
    var slug := StringField(body.slug);
    if slug != [] {
      DeletePreservesWellFormed(LoadLinks(disk).links, slug);
      CommitThenLoad(Delete(LoadLinks(disk).links, slug), disk, ctx.write);
    }
  }

  /** Deleting the same slug twice: the second request is a 404 and leaves
      storage exactly as the first one left it. */
  lemma DeleteTwice(ctx: Context, disk: Document, req: Request)
    requires req.verb == "DELETE"
    requires Serve(ctx, disk, req).resp == Removed
    ensures Serve(ctx, Serve(ctx, disk, req).disk, req) == Served(Rejected(404), Serve(ctx, disk, req).disk)
  {
  }

  /** A create with a usable URL is the table-level create over the loaded
      table, committed. */
  lemma CreateFromFieldsUnfolds(ctx: Context, disk: Document, urlText: string, slug: string)
    requires Truthy(NormalizeUrl(ctx.parser, urlText))
    ensures CreateFromFields(ctx, disk, urlText, slug)
              == Commit(Create(LoadLinks(disk).links, NormalizeUrl(ctx.parser, urlText).value, slug, ctx.draws), LoadLinks(disk), ctx.write)
  {
  }

  lemma RequestedAbc()
    ensures CoercedField(Str("abc")) == "abc" && IsValidSlug("abc")
  {
    TrimUnchanged("abc");
    assert "abc"[0] == 'a' && "abc"[1] == 'b' && "abc"[2] == 'c';
  }

  /** Two creates asking for the same slug: the second is a 409 and the table
      keeps the first mapping. */
  lemma ConflictingCreates(ctx: Context, links: Links, first: Request, second: Request)
    requires ctx.write == Written
    requires WithAuth(ctx.authKey, first.apiKey).None? && WithAuth(ctx.authKey, second.apiKey).None?
    requires first.verb == "POST" && second.verb == "POST"
    requires first.body.slug == Str("abc") && second.body.slug == Str("abc")
    requires "abc" !in links
    requires Truthy(RequestUrl(ctx, first.body)) && Truthy(RequestUrl(ctx, second.body))
    ensures var one := Serve(ctx, Object(links), first);
            && one.resp == Created("abc", RequestUrl(ctx, first.body).value)
            && Serve(ctx, one.disk, second) == Served(Rejected(409), one.disk)
            && LoadLinks(one.disk).links["abc"] == RequestUrl(ctx, first.body).value
  {
    RequestedAbc();
    var url := RequestUrl(ctx, first.body).value;
    var one := Serve(ctx, Object(links), first);
    assert one == CreateLink(ctx, Object(links), first.body);
    CreateFromFieldsUnfolds(ctx, Object(links), StringField(first.body.url), CoercedField(first.body.slug));
    var next := links["abc" := url];
    assert one == Served(Created("abc", url), Object(next));
    assert Serve(ctx, one.disk, second) == CreateLink(ctx, one.disk, second.body);
    CreateFromFieldsUnfolds(ctx, one.disk, StringField(second.body.url), CoercedField(second.body.slug));
  }

  /** Create `example.com` without a slug, resolve it, delete it, resolve it
      again: the URL gains `https://`, the slug is a fresh six-character
      nanoid, the lookup redirects, the delete restores the original table,
      and the lookup after it is a 404. */
  lemma EndToEnd(ctx: Context, links: Links) returns (slug: string)
    requires ctx.write == Written
    requires Parse(ctx.parser, "https://" + "example.com") == Some("https://example.com/")
    requires forall j :: 0 <= j < |ctx.draws| ==> IsNanoId(ctx.draws[j])
    requires exists j :: 0 <= j < |ctx.draws| && ctx.draws[j] !in links
    ensures |slug| == 6 && IsValidSlug(slug) && slug !in links
    ensures CreateLink(ctx, Object(links), Body(Str("example.com"), Undefined))
              == Served(Created(slug, "https://example.com/"), Object(links[slug := "https://example.com/"]))
    ensures Resolve(links[slug := "https://example.com/"], slug) == Redirect("https://example.com/")
    ensures DeleteLink(ctx, Object(links[slug := "https://example.com/"]), Body(Undefined, Str(slug)))
              == Served(Removed, Object(links))
    ensures Resolve(links, slug) == Rejected(404)
  {
    slug := CreateExample(ctx, links);
    DeleteNamed(ctx, links[slug := "https://example.com/"], slug);
    LinkStore.RemoveAdded(links, slug, "https://example.com/");
  }

  /** The create step of `EndToEnd`. */
  lemma CreateExample(ctx: Context, links: Links) returns (slug: string)
    requires ctx.write == Written
    requires Parse(ctx.parser, "https://" + "example.com") == Some("https://example.com/")
    requires forall j :: 0 <= j < |ctx.draws| ==> IsNanoId(ctx.draws[j])
    requires exists j :: 0 <= j < |ctx.draws| && ctx.draws[j] !in links
    ensures |slug| == 6 && IsValidSlug(slug) && slug !in links
    ensures CreateLink(ctx, Object(links), Body(Str("example.com"), Undefined))
              == Served(Created(slug, "https://example.com/"), Object(links[slug := "https://example.com/"]))
  {
    var body := Body(Str("example.com"), Undefined);
    ExampleComNormalises(ctx);
    CreateFromFieldsUnfolds(ctx, Object(links), StringField(body.url), CoercedField(body.slug));
    slug := GenerateSlug(links, ctx.draws).value;
  }

  /** A successful delete of a present slug, by name. */
  lemma DeleteNamed(ctx: Context, links: Links, slug: string)
    requires ctx.write == Written
    requires IsValidSlug(slug) && slug in links
    ensures DeleteLink(ctx, Object(links), Body(Undefined, Str(slug))) == Served(Removed, Object(links - {slug}))
  {
    ValidSlugTrimsToItself(slug);
    DeleteLinkUnfolds(ctx, Object(links), Body(Undefined, Str(slug)));
  }

  lemma ExampleComNormalises(ctx: Context)
    requires Parse(ctx.parser, "https://" + "example.com") == Some("https://example.com/")
    ensures RequestUrl(ctx, Body(Str("example.com"), Undefined)) == Some("https://example.com/")
  {
    var raw := "example.com";
    TrimUnchanged(raw);
    assert !HasHttpScheme(raw) by {
      assert LowerAscii(raw[0]) != "http://"[0];
    }
  }

  /** A valid slug has no whitespace to trim. */
  lemma ValidSlugTrimsToItself(slug: string)
    requires IsValidSlug(slug)
    ensures StringField(Str(slug)) == slug
  {
    TrimUnchanged(slug);
  }

  /** A delete naming a slug is the table-level delete over the loaded table,
      committed. */
  lemma DeleteLinkUnfolds(ctx: Context, disk: Document, body: Body)
    requires StringField(body.slug) != []
    ensures DeleteLink(ctx, disk, body) == Commit(Delete(LoadLinks(disk).links, StringField(body.slug)), LoadLinks(disk), ctx.write)
  {
  }

}

=== FILE: linkstore.dfy ===
/** The table-level core both servers share: each mutating operation
    validates, looks the slug up, and builds the next table, which is the
    one handed to `saveLinks`. Responses keep only the status code and the
    returned slug and URL. */
module LinkStore {

  import opened Wrappers
  import opened Storage

  datatype Response =
    | Listed(links: Links)                // 200, one entry per link
    | Created(slug: string, url: string)  // 201
    | Updated(slug: string, url: string)  // 200
    | Removed                             // 200 `{ ok: true }`
    | Redirect(url: string)               // 301
    | Rejected(code: int)                 // 400, 401, 404, 405, 409, 500
    | Threw                               // the handler's promise rejected: a write failed
    | NoFreshDraw                         // the slug loop had not ended within the modelled draws

  /** A handler's verdict on a table: its response, and the next table when
      it calls `saveLinks` (None when it saves nothing). */
  datatype Outcome = Outcome(resp: Response, next: Option<Links>)

  /** The table once an outcome has been saved. */
  function After(o: Outcome, links: Links): Links {
    if o.next.Some? then o.next.value else links
  }

  /** Every slug matches the slug pattern and every URL is non-empty. */
  ghost predicate WellFormed(links: Links) {
    forall k :: k in links ==> IsValidSlug(k) && links[k] != []
  }

  /** Create, given the normalised URL and the trimmed requested slug (empty
      when none was requested): a requested slug must match the pattern (400)
      and be free (409); otherwise a fresh slug is drawn. On success exactly
      that slug is added, mapped to `url`, and nothing else changes. */
  function Create(links: Links, url: string, slug: string, draws: seq<string>): (o: Outcome)
    ensures o.next.Some? <==> o.resp.Created?
    ensures o.resp.Created? ==> o.resp.slug !in links && o.resp.url == url
    ensures o.resp.Created? ==> o.next == Some(links[o.resp.slug := url])
    ensures slug != [] && !IsValidSlug(slug) ==> o == Outcome(Rejected(400), None)
    ensures slug != [] && IsValidSlug(slug) && slug in links ==> o == Outcome(Rejected(409), None)
    ensures slug != [] ==> (o.resp.Created? <==> IsValidSlug(slug) && slug !in links)
    ensures slug != [] && o.resp.Created? ==> o.resp.slug == slug
    ensures slug == [] ==> (o.resp.Created? <==> exists j :: 0 <= j < |draws| && draws[j] !in links)
    ensures slug == [] && o.resp.Created? ==> o.resp.slug in draws
    ensures slug == [] && !o.resp.Created? ==> o == Outcome(NoFreshDraw, None)
  {
    if slug != [] then
      if !IsValidSlug(slug) then Outcome(Rejected(400), None)
      else if slug in links then Outcome(Rejected(409), None)
      else Outcome(Created(slug, url), Some(links[slug := url]))
    else
      match GenerateSlug(links, draws)
      case None => Outcome(NoFreshDraw, None)
      case Some(drawn) => Outcome(Created(drawn, url), Some(links[drawn := url]))
  }

  /** Update: 404 unless the slug is present; otherwise the key set stays the
      same and only that slug's URL changes. */
  function Update(links: Links, slug: string, url: string): (o: Outcome)
    ensures o.next.Some? <==> slug in links
    ensures slug !in links ==> o == Outcome(Rejected(404), None)
    ensures slug in links ==> o.resp == Updated(slug, url)
    ensures o.next.Some? ==> o.next.value.Keys == links.Keys && o.next.value[slug] == url
    ensures o.next.Some? ==> forall k :: k in links && k != slug ==> o.next.value[k] == links[k]
  {
    if slug !in links then Outcome(Rejected(404), None)
    else Outcome(Updated(slug, url), Some(links[slug := url]))
  }

  /** Delete: 404 unless the slug is present; otherwise exactly that key is
      removed and every other entry is kept. */
  function Delete(links: Links, slug: string): (o: Outcome)
    ensures o.next.Some? <==> slug in links
    ensures slug !in links ==> o == Outcome(Rejected(404), None)
    ensures slug in links ==> o.resp == Removed
    ensures o.next.Some? ==> o.next.value.Keys == links.Keys - {slug}
    ensures o.next.Some? ==> forall k :: k in o.next.value ==> o.next.value[k] == links[k]
  {
    if slug !in links then Outcome(Rejected(404), None)
    else Outcome(Removed, Some(links - {slug}))
  }

  /** The redirect lookup: a present slug redirects (301) to its stored URL,
      an absent one is 404. */
  function Resolve(links: Links, slug: string): (r: Response)
    ensures r.Redirect? <==> slug in links
    ensures r.Redirect? ==> r.url == links[slug]
    ensures slug !in links ==> r == Rejected(404)
  {
    if slug in links then Redirect(links[slug]) else Rejected(404)
  }

  /** `Object.entries(links).map(([slug, url]) => ({ slug, url }))`: one pair
      per entry, no key twice. The enumeration order is the engine's and is
      left as an arbitrary choice. */
  method Entries(links: Links) returns (list: seq<(string, string)>)
    ensures |list| == |links|
    ensures forall i :: 0 <= i < |list| ==> list[i].0 in links && list[i].1 == links[list[i].0]
    ensures forall i, j :: 0 <= i < j < |list| ==> list[i].0 != list[j].0
    ensures forall k :: k in links ==> exists i :: 0 <= i < |list| && list[i].0 == k
  {
    list := [];
    var rest := links.Keys;
    while rest != {}
      invariant rest <= links.Keys
      invariant |list| + |rest| == |links.Keys|
      invariant forall i :: 0 <= i < |list| ==> list[i].0 in links && list[i].0 !in rest && list[i].1 == links[list[i].0]
      invariant forall i, j :: 0 <= i < j < |list| ==> list[i].0 != list[j].0
      invariant forall k :: k in links && k !in rest ==> exists i :: 0 <= i < |list| && list[i].0 == k
      decreases rest
    {
      var k :| k in rest;
      ghost var before := list;
      list := list + [(k, links[k])];
      rest := rest - {k};
      forall k' | k' in links && k' !in rest ensures exists i :: 0 <= i < |list| && list[i].0 == k' {
        if k' == k {
          assert list[|list| - 1].0 == k';
        } else {
          var i :| 0 <= i < |before| && before[i].0 == k';
          assert list[i].0 == k';
        }
      }
    }
  }

  // ---------------------------------------------------------------------
  // Invariants and multi-step properties
  // ---------------------------------------------------------------------

  /** Removing a key just added to a table that lacked it gives the table
      back. */
  lemma RemoveAdded(links: Links, slug: string, url: string)
    requires slug !in links
    ensures links[slug := url] - {slug} == links
  {
    assert (links[slug := url] - {slug}).Keys == links.Keys;
  }

  /** A successful create keeps the table well formed when the URL is
      non-empty and every draw is a nanoid. */
  lemma CreatePreservesWellFormed(links: Links, url: string, slug: string, draws: seq<string>)
    requires WellFormed(links) && url != []
    requires forall j :: 0 <= j < |draws| ==> IsNanoId(draws[j])
    ensures WellFormed(After(Create(links, url, slug, draws), links))
  {
    var o := Create(links, url, slug, draws);
    if o.resp.Created? && slug == [] {
      assert GenerateSlug(links, draws).Some?;
    }
  }

  lemma UpdatePreservesWellFormed(links: Links, slug: string, url: string)
    requires WellFormed(links) && url != []
    ensures WellFormed(After(Update(links, slug, url), links))
  {
  }

  lemma DeletePreservesWellFormed(links: Links, slug: string)
    requires WellFormed(links)
    ensures WellFormed(After(Delete(links, slug), links))
  {
  }

  /** One create call: normalised URL, trimmed requested slug, nanoid draws. */
  datatype CreateCall = CreateCall(url: string, slug: string, draws: seq<string>)

  /** A run of creates against one table, each seeing the previous one's
      table; yields the responses and the final table. */
  function CreateAll(links: Links, calls: seq<CreateCall>): (r: (seq<Response>, Links))
    ensures |r.0| == |calls|
    ensures links.Keys <= r.1.Keys
    ensures forall i :: 0 <= i < |r.0| && r.0[i].Created? ==> r.0[i].slug in r.1
    decreases |calls|
  {
    if calls == [] then ([], links)
    else
      var o := Create(links, calls[0].url, calls[0].slug, calls[0].draws);
      var rest := CreateAll(After(o, links), calls[1..]);
      ([o.resp] + rest.0, rest.1)
  }

  /** No slug a run of creates hands out was present before the run. */
  lemma {:induction false} CreateAllFresh(links: Links, calls: seq<CreateCall>)
    ensures forall i :: 0 <= i < |calls| && CreateAll(links, calls).0[i].Created? ==> CreateAll(links, calls).0[i].slug !in links
    decreases |calls|
  {
    if calls != [] {
      var o := Create(links, calls[0].url, calls[0].slug, calls[0].draws);
      var next := After(o, links);
      CreateAllFresh(next, calls[1..]);
      var r := CreateAll(links, calls);
      var rest := CreateAll(next, calls[1..]);
      forall i | 0 <= i < |calls| && r.0[i].Created? ensures r.0[i].slug !in links {
        if i > 0 {
          assert r.0[i] == rest.0[i - 1];
          assert links.Keys <= next.Keys;
        }
      }
    }
  }

  /** Slugs handed out by a run of creates are pairwise distinct: N
      successful creates yield N different slugs, none of them pre-existing. */
  lemma {:induction false} CreateAllDistinct(links: Links, calls: seq<CreateCall>)
    ensures forall i, j :: 0 <= i < j < |calls| && CreateAll(links, calls).0[i].Created? && CreateAll(links, calls).0[j].Created?
              ==> CreateAll(links, calls).0[i].slug != CreateAll(links, calls).0[j].slug
    decreases |calls|
  {
    if calls != [] {
      var o := Create(links, calls[0].url, calls[0].slug, calls[0].draws);
      var next := After(o, links);
      CreateAllDistinct(next, calls[1..]);
      CreateAllFresh(next, calls[1..]);
      var r := CreateAll(links, calls);
      var rest := CreateAll(next, calls[1..]);
      forall i, j | 0 <= i < j < |calls| && r.0[i].Created? && r.0[j].Created? ensures r.0[i].slug != r.0[j].slug {
        assert r.0[j] == rest.0[j - 1];
        if i > 0 {
          assert r.0[i] == rest.0[i - 1];
        } else {
          assert r.0[i].slug in next;
        }
      }
    }
  }

}

=== FILE: requests.dfy ===
/** The JSON request body as the handlers read it. */
module Requests {

  import opened Wrappers
  import opened Text

  /** A body field: absent, a string, or another JSON value that is falsy
      (`0`, `false`, `null`) or truthy (carrying its `String(...)` form). */
  datatype JsValue = Undefined | Str(s: string) | FalsyValue | TruthyValue(text: string)

  /** The `url` and `slug` fields of `req.body || {}`; a missing body has
      both fields undefined. */
  datatype Body = Body(url: JsValue, slug: JsValue)

  /** Every character of `s` is whitespace (so `s.trim()` is empty). */
  predicate AllWhitespace(s: string) {
    forall i :: 0 <= i < |s| ==> IsJsWhitespace(s[i])
  }

  /** `typeof v === 'string' ? v.trim() : ''`: only a string field can be
      non-empty, and then only when it holds something besides whitespace. */
  function StringField(v: JsValue): (r: string)
    ensures v.Str? ==> r == Trim(v.s)
    ensures r == [] <==> !v.Str? || AllWhitespace(v.s)
    ensures r != [] ==> !IsJsWhitespace(r[0]) && !IsJsWhitespace(r[|r| - 1])
  {
    if v.Str? then Trim(v.s) else []
  }

  /** `v ? String(v).trim() : ''`: every truthy value is turned into text. An
      absent or falsy field reads as empty, and a string reads as it does
      through `StringField`. */
  function CoercedField(v: JsValue): (r: string)
    ensures v.Undefined? || v.FalsyValue? ==> r == []
    ensures v.Str? ==> r == StringField(v)
    ensures v.TruthyValue? ==> r == Trim(v.text)
    ensures v.TruthyValue? ==> (r == [] <==> AllWhitespace(v.text))
    ensures r != [] ==> !IsJsWhitespace(r[0]) && !IsJsWhitespace(r[|r| - 1])
  {
    match v
    case Str(s) => Trim(s)
    case TruthyValue(text) => Trim(text)
    case _ => []
  }

  /** The handlers' `if (!url)` test on a normalised URL, reversed. */
  predicate Truthy(u: Option<string>) {
    u.Some? && u.value != []
  }

}

=== FILE: server.dfy ===
/** The legacy Express server (server.js). It keeps its own copies of the
    helpers and holds the table in memory as `linkStore`, loaded once at
    start-up; `saveLinks` replaces `linkStore` and then writes the file. */
module Server {

  import opened Wrappers
  import opened Text
  import Storage
  import opened Requests
  import opened LinkStore

  type Links = Storage.Links
  type Document = Storage.Document

  /** The in-memory `linkStore` and the stored document. */
  datatype State = State(linkStore: Links, disk: Document)

  /** A response together with the server state afterwards. */
  datatype Reply = Reply(resp: Response, state: State)

  /** What a request meets from outside the route: the URL parser, the values
      `nanoid(6)` would yield, and whether the file write succeeds. */
  datatype Effects = Effects(parser: Storage.UrlParser, draws: seq<string>, write: Storage.WriteOutcome)

  /** This copy of `loadLinks` creates a missing file as `{}` but does not
      reset an unparsable one; anything that is not an object of links still
      reads as the empty table. */
  function LoadLinks(disk: Document): (r: Storage.Loaded)
    ensures disk.Object? ==> r == Storage.Loaded(disk.links, disk)
    ensures !disk.Object? ==> r.links == map[]
    ensures disk.Missing? ==> r.disk == Storage.Object(map[])
    ensures !disk.Missing? ==> r.disk == disk
  {
    match disk
    case Missing => Storage.Loaded(map[], Storage.Object(map[]))
    case Object(links) => Storage.Loaded(links, disk)
    case _ => Storage.Loaded(map[], disk)
  }

  /** The two copies of `loadLinks` read the same table from any document;
      they leave different documents behind only for an unparsable one,
      which the library resets and the server keeps. */
  lemma LoadLinksCopiesAgree(disk: Document)
    ensures LoadLinks(disk).links == Storage.LoadLinks(disk).links
    ensures LoadLinks(disk).disk == Storage.LoadLinks(disk).disk <==> !disk.Unparsable?
  {
  }

  /** Start-up: `linkStore = await loadLinks()`. */
  function Start(disk: Document): (st: State)
    ensures st.linkStore == Storage.LoadLinks(disk).links
    ensures st.disk == LoadLinks(disk).disk
    ensures disk.Unparsable? ==> st == State(map[], Storage.Unparsable)
    ensures disk.Object? ==> st == State(disk.links, disk)
  {
    LoadLinksCopiesAgree(disk);
    var loaded := LoadLinks(disk);
    State(loaded.links, loaded.disk)
  }

  /** `saveLinks`: `linkStore` takes the new table before the write is
      attempted, so a failed write leaves memory ahead of storage. */
  function SaveLinks(st: State, links: Links, w: Storage.WriteOutcome): (st': State)
    ensures st'.linkStore == links
    ensures w == Storage.Written ==> st'.disk == Storage.Object(links)
    ensures w == Storage.WriteFailed ==> st'.disk == st.disk
  {
    State(links, Storage.Write(st.disk, links, w))
  }

  /** `rawUrl.match(/^https?:\/\//i)`: the matched scheme prefix, or None
      (JavaScript's `null`) when the input does not start with one. */
  function MatchScheme(s: string): (m: Option<string>)
    ensures m.Some? <==> Storage.HasHttpScheme(s)
    ensures m.Some? ==> |m.value| <= |s| && m.value == s[..|m.value|]
    ensures m.Some? ==> |m.value| == 7 || |m.value| == 8
  {
    if StartsWithIgnoringCase(s, "https://") then Some(s[..8])
    else if StartsWithIgnoringCase(s, "http://") then Some(s[..7])
    else None
  }

  /** This copy of `normalizeUrl` tests the scheme with `match` rather than
      `test`; the outcome is the library's for every input and every parser. */
  function NormalizeUrl(parser: Storage.UrlParser, raw: string): (url: Option<string>)
    ensures url == Storage.NormalizeUrl(parser, raw)
    ensures raw == [] ==> url.None?
    ensures raw != [] ==> url == Storage.Parse(parser, if Storage.HasHttpScheme(raw) then raw else "https://" + raw)
  {
    if raw == [] then None
    else
      var withProtocol := if MatchScheme(raw).Some? then raw else "https://" + raw;
      Storage.Parse(parser, withProtocol)
  }

  /** This copy of `isValidSlug` uses the library's pattern. */
  function IsValidSlug(s: string): (ok: bool)
    ensures ok <==> 3 <= |s| <= 32 && forall i :: 0 <= i < |s| ==> Storage.IsSlugChar(s[i])
    ensures ok == Storage.IsValidSlug(s)
  {
    Storage.ClassRepeatMeaning(s, 3, 32);
    Storage.ClassRepeat(s, 3, 32)
  }

  /** Insert `slug` and save, answering 201 once the write is done; a failed
      write rejects the handler after `linkStore` has already changed. */
  function Insert(fx: Effects, st: State, slug: string, url: string): (r: Reply)
    ensures r.state.linkStore == st.linkStore[slug := url]
    ensures fx.write == Storage.Written ==>
              r == Reply(Created(slug, url), State(st.linkStore[slug := url], Storage.Object(st.linkStore[slug := url])))
    ensures fx.write == Storage.WriteFailed ==> r.resp == Threw && r.state.disk == st.disk
  {
    Reply(if fx.write == Storage.Written then Created(slug, url) else Threw,
          SaveLinks(st, st.linkStore[slug := url], fx.write))
  }

  /** `POST /api/shorten` once the body has been read: `urlText` is the
      trimmed `url` field and `slug` the trimmed requested slug, empty when
      none was given. An unusable URL is a 400; a requested slug that fails
      the pattern is a 400 and one already in `linkStore` a 409, all leaving
      the state alone. Otherwise (drawing a slug absent from `linkStore` when
      none was requested) `linkStore` becomes the old one plus exactly that
      slug, and the answer is 201. */
  function ShortenFromFields(fx: Effects, st: State, urlText: string, slug: string): (r: Reply)
    ensures !Truthy(NormalizeUrl(fx.parser, urlText)) ==> r == Reply(Rejected(400), st)
    ensures Truthy(NormalizeUrl(fx.parser, urlText)) && slug != [] && !IsValidSlug(slug) ==>
              r == Reply(Rejected(400), st)
    ensures Truthy(NormalizeUrl(fx.parser, urlText)) && slug != [] && IsValidSlug(slug) && slug in st.linkStore ==>
              r == Reply(Rejected(409), st)
    ensures r.resp.Created? ==>
              && fx.write == Storage.Written
              && NormalizeUrl(fx.parser, urlText) == Some(r.resp.url)
              && r.resp.slug !in st.linkStore
              && r.state == State(st.linkStore[r.resp.slug := r.resp.url], Storage.Object(st.linkStore[r.resp.slug := r.resp.url]))
    ensures r.resp.Created? && slug != [] ==> r.resp.slug == slug
    ensures r.resp.Created? && slug == [] ==> r.resp.slug in fx.draws
    ensures r.resp.Threw? ==>
              && fx.write == Storage.WriteFailed
              && r.state.disk == st.disk
              && exists added :: added !in st.linkStore && r.state.linkStore == st.linkStore[added := NormalizeUrl(fx.parser, urlText).value]
    ensures !r.resp.Created? && !r.resp.Threw? ==> r.state == st
  {
    var url := NormalizeUrl(fx.parser, urlText);
    if !Truthy(url) then Reply(Rejected(400), st)
    else if slug != [] then
      if !IsValidSlug(slug) then Reply(Rejected(400), st)
      else if slug in st.linkStore then Reply(Rejected(409), st)
      else Insert(fx, st, slug, url.value)
    else
      match Storage.GenerateSlug(st.linkStore, fx.draws)
      case None => Reply(NoFreshDraw, st)
      case Some(drawn) => Insert(fx, st, drawn, url.value)
  }

  /** `POST /api/shorten`, reading the body as the library route does: a
      `url` that is not a string is a 400 that changes nothing, and without
      a truthy `slug` only a drawn slug can be handed out. A usable URL
      reaches the table-level create over `linkStore`. */
  function Shorten(fx: Effects, st: State, body: Body): (r: Reply)
    ensures !body.url.Str? ==> r == Reply(Rejected(400), st)
    ensures !Truthy(NormalizeUrl(fx.parser, StringField(body.url))) ==> r == Reply(Rejected(400), st)
    ensures (body.slug.Undefined? || body.slug.FalsyValue?) && r.resp.Created? ==> r.resp.slug in fx.draws
    ensures CoercedField(body.slug) != [] && r.resp.Created? ==> r.resp.slug == CoercedField(body.slug)
    ensures Truthy(NormalizeUrl(fx.parser, StringField(body.url))) ==>
              var o := Create(st.linkStore, NormalizeUrl(fx.parser, StringField(body.url)).value, CoercedField(body.slug), fx.draws);
              && r.state.linkStore == After(o, st.linkStore)
              && (fx.write == Storage.Written ==> r.resp == o.resp)
  {
    var urlText := StringField(body.url);
    var slug := CoercedField(body.slug);
    if Truthy(NormalizeUrl(fx.parser, urlText)) then
      ShortenAgreesWithCreate(fx, st, urlText, slug);
      ShortenFromFields(fx, st, urlText, slug)
    else
      ShortenFromFields(fx, st, urlText, slug)
  }

  /** The Express endpoint decides exactly as the table-level create does:
      the same response, and `linkStore` becomes the table that create hands
      to `saveLinks`, whether or not the write then succeeds. */
  lemma ShortenAgreesWithCreate(fx: Effects, st: State, urlText: string, slug: string)
    requires Truthy(NormalizeUrl(fx.parser, urlText))
    ensures var o := Create(st.linkStore, NormalizeUrl(fx.parser, urlText).value, slug, fx.draws);
            && ShortenFromFields(fx, st, urlText, slug).state.linkStore == After(o, st.linkStore)
            && (fx.write == Storage.Written ==> ShortenFromFields(fx, st, urlText, slug).resp == o.resp)
  {
    var url := NormalizeUrl(fx.parser, urlText).value;
    if slug != [] {
      assert IsValidSlug(slug) == Storage.IsValidSlug(slug);
    } else {
      match Storage.GenerateSlug(st.linkStore, fx.draws)
      case None =>
      case Some(drawn) =>
        assert ShortenFromFields(fx, st, urlText, slug) == Insert(fx, st, drawn, url);
    }
  }

  /** `GET /:slug`: a present slug redirects (301) to its stored URL, an
      absent one is 404; nothing is written. */
  function Resolve(st: State, slug: string): (r: Response)
    ensures r.Redirect? <==> slug in st.linkStore
    ensures r.Redirect? ==> r.url == st.linkStore[slug]
    ensures slug !in st.linkStore ==> r == Rejected(404)
  {
    LinkStore.Resolve(st.linkStore, slug)
  }

  /** `GET /api/links`: `Object.entries(linkStore)` as `{ slug, url }`
      pairs, straight from memory with no load: every entry of `linkStore`
      exactly once, and nothing else. */
  method ListLinks(st: State) returns (list: seq<(string, string)>)
    ensures |list| == |st.linkStore|
    ensures forall i :: 0 <= i < |list| ==> list[i].0 in st.linkStore && list[i].1 == st.linkStore[list[i].0]
    ensures forall i, j :: 0 <= i < j < |list| ==> list[i].0 != list[j].0
    ensures forall k :: k in st.linkStore ==> exists i :: 0 <= i < |list| && list[i].0 == k
  {
    list := Entries(st.linkStore);
  }

  /** Once a slug is handed out by a shorten that was written, resolving it
      redirects to the normalised URL. */
  lemma ShortenThenResolve(fx: Effects, st: State, urlText: string, slug: string)
    requires ShortenFromFields(fx, st, urlText, slug).resp.Created?
    ensures var r := ShortenFromFields(fx, st, urlText, slug);
            Resolve(r.state, r.resp.slug) == Redirect(r.resp.url)
  {
  }

}

=== FILE: storage.dfy ===
/** The shared helpers of the Next.js application (lib/storage.js): slug
    validation, URL normalisation, collision-avoiding slug generation, and
    loading and saving the link table over an abstract stored document. */
module Storage {

  import opened Wrappers
  import opened Text

  /** The link table: slug to target URL. */
  type Links = map<string, string>

  /** `new URL(s).toString()`, left uninterpreted: the inputs the WHATWG
      parser accepts, each with its canonical serialisation. The constructor
      throws on every input that is not a key. */
  type UrlParser = map<string, string>

  /** The parser's verdict on `s`: its serialisation, or None (it throws). */
  function Parse(parser: UrlParser, s: string): Option<string> {
    if s in parser then Some(parser[s]) else None
  }

  // ---------------------------------------------------------------------
  // Slugs
  // ---------------------------------------------------------------------

  /** The character class `[a-zA-Z0-9_-]`. */
  predicate IsSlugChar(c: char) {
    ('a' <= c <= 'z') || ('A' <= c <= 'Z') || ('0' <= c <= '9') || c == '_' || c == '-'
  }

  /** Whether all of `s` matches `[a-zA-Z0-9_-]{min,max}$`, consuming one
      class character per step as the regular-expression engine does. */
  function ClassRepeat(s: string, min: nat, max: nat): bool
  {
    if s == [] then min == 0
    else max > 0 && IsSlugChar(s[0]) && ClassRepeat(s[1..], if min == 0 then 0 else min - 1, max - 1)
  }

  lemma {:induction false} ClassRepeatMeaning(s: string, min: nat, max: nat)
    ensures ClassRepeat(s, min, max) <==> min <= |s| <= max && forall i :: 0 <= i < |s| ==> IsSlugChar(s[i])
  {
    if s != [] && max > 0 {
      ClassRepeatMeaning(s[1..], if min == 0 then 0 else min - 1, max - 1);
      if IsSlugChar(s[0]) && forall i :: 0 <= i < |s[1..]| ==> IsSlugChar(s[1..][i]) {
        forall i | 0 <= i < |s| ensures IsSlugChar(s[i]) {
          if i > 0 { assert s[i] == s[1..][i - 1]; }
        }
      }
    }
  }

  /** `isValidSlug`: the anchored pattern `^[a-zA-Z0-9_-]{3,32}$` holds of
      the whole string, not of some substring of it. */
  function IsValidSlug(s: string): (ok: bool)
    ensures ok <==> 3 <= |s| <= 32 && forall i :: 0 <= i < |s| ==> IsSlugChar(s[i])
  {
    ClassRepeatMeaning(s, 3, 32);
    ClassRepeat(s, 3, 32)
  }

  /** Because the pattern is anchored at both ends, one character outside the
      class on either side of a valid slug makes the whole string invalid. */
  lemma WholeStringOnly(s: string, c: char)
    requires IsValidSlug(s) && !IsSlugChar(c)
    ensures !IsValidSlug(s + [c]) && !IsValidSlug([c] + s)
  {
    assert (s + [c])[|s|] == c;
    assert ([c] + s)[0] == c;
  }

  // ---------------------------------------------------------------------
  // URL normalisation
  // ---------------------------------------------------------------------

  /** The test `/^https?:\/\//i`. */
  predicate HasHttpScheme(s: string) {
    StartsWithIgnoringCase(s, "http://") || StartsWithIgnoringCase(s, "https://")
  }

  /** The string handed to the URL parser: the input itself when it already
      carries an http or https scheme (in any letter case), else the input
      behind `https://`. */
  function WithProtocol(raw: string): (fed: string)
    ensures HasHttpScheme(fed)
    ensures fed == raw <==> HasHttpScheme(raw)
    ensures |raw| <= |fed| && fed[|fed| - |raw|..] == raw
    ensures !HasHttpScheme(raw) ==> fed == "https://" + raw
  {
    if HasHttpScheme(raw) then raw
    else "https://" + raw
  }

  /** Prefixing is done at most once. */
  lemma WithProtocolIdempotent(raw: string)
    ensures WithProtocol(WithProtocol(raw)) == WithProtocol(raw)
  {
  }

  /** `normalizeUrl`: null for the empty string; otherwise the parser's
      verdict on the scheme-prefixed input, null exactly when it throws. */
  function NormalizeUrl(parser: UrlParser, raw: string): (url: Option<string>)
    ensures raw == [] ==> url.None?
    ensures raw != [] && HasHttpScheme(raw) ==> url == Parse(parser, raw)
    ensures raw != [] && !HasHttpScheme(raw) ==> url == Parse(parser, "https://" + raw)
    ensures url.None? <==> raw == [] || WithProtocol(raw) !in parser
  {
    if raw == [] then None else Parse(parser, WithProtocol(raw))
  }

  // ---------------------------------------------------------------------
  // Slug generation
  // ---------------------------------------------------------------------

  /** What `nanoid(6)` returns: six symbols of its default alphabet, which is
      exactly `[A-Za-z0-9_-]`. */
  predicate IsNanoId(s: string) {
    |s| == 6 && forall i :: 0 <= i < |s| ==> IsSlugChar(s[i])
  }

  /** The number of draws the do-while loop throws away: every draw before
      it is taken, the draw at it (if any) is free. */
  function FirstFreeDraw(existing: Links, draws: seq<string>): (n: nat)
    ensures n <= |draws|
    ensures forall j :: 0 <= j < n ==> draws[j] in existing
    ensures n < |draws| ==> draws[n] !in existing
  {
    if draws == [] || draws[0] !in existing then 0
    else 1 + FirstFreeDraw(existing, draws[1..])
  }

  /** `generateSlug(existing)`: keep drawing until a slug that is not a key
      of `existing` comes up, and return that first free draw. `draws` is
      the sequence of values `nanoid(6)` yields; None when all of them are
      taken, i.e. the loop would still be running after the modelled draws. */
  function GenerateSlug(existing: Links, draws: seq<string>): (slug: Option<string>)
    ensures slug.Some? ==> slug.value !in existing && slug.value in draws
    ensures slug.Some? ==>
              exists n :: 0 <= n < |draws| && draws[n] == slug.value && forall j :: 0 <= j < n ==> draws[j] in existing
    ensures slug.None? <==> forall j :: 0 <= j < |draws| ==> draws[j] in existing
    ensures slug.Some? && (forall j :: 0 <= j < |draws| ==> IsNanoId(draws[j])) ==> |slug.value| == 6 && IsValidSlug(slug.value)
  {
    var n := FirstFreeDraw(existing, draws);
    if n < |draws| then Some(draws[n]) else None
  }

  // ---------------------------------------------------------------------
  // Persistence
  // ---------------------------------------------------------------------

  /** The stored `links.json` as `JSON.parse` sees it: absent, not JSON at
      all, a JSON value that is not an object, or an object of links. */
  datatype Document = Missing | Unparsable | NonObject | Object(links: Links)

  /** A table read from storage, with the document as it stands afterwards. */
  datatype Loaded = Loaded(links: Links, disk: Document)

  /** Whether a write of the whole document succeeded. */
  datatype WriteOutcome = Written | WriteFailed

  /** The document after an attempt to write `links`; a failed write is taken
      to leave the previous document in place. */
  function Write(disk: Document, links: Links, w: WriteOutcome): (d: Document)
    ensures w == Written ==> d == Object(links)
    ensures w == WriteFailed ==> d == disk
  {
    if w == Written then Object(links) else disk
  }

  /** `loadLinks`: an absent document is first created as `{}`; an
      unparsable one is reset to `{}` on storage; anything that is not an
      object reads as the empty table. */
  function LoadLinks(disk: Document): (r: Loaded)
    ensures disk.Object? ==> r == Loaded(disk.links, disk)
    ensures !disk.Object? ==> r.links == map[]
    ensures disk.Missing? || disk.Unparsable? ==> r.disk == Object(map[])
    ensures disk.NonObject? ==> r.disk == disk
    ensures r.disk.Object? || r.disk.NonObject?
  {
    match disk
    case Missing => Loaded(map[], Object(map[]))
    case Unparsable => Loaded(map[], Object(map[]))
    case NonObject => Loaded(map[], NonObject)
    case Object(links) => Loaded(links, disk)
  }

  /** After one load the document is settled: loading again reads the same
      table and writes nothing. */
  lemma LoadLinksSettles(disk: Document)
    ensures LoadLinks(LoadLinks(disk).disk) == LoadLinks(disk)
  {
  }

  /** `saveLinks`' result: the table it resolves to, None when the write
      rejected, and the document afterwards. */
  datatype Saved = Saved(returned: Option<Links>, disk: Document)

  /** `saveLinks`: the whole table replaces the document, and the very table
      passed in is handed back; a failed write rejects instead. */
  function SaveLinks(links: Links, disk: Document, w: WriteOutcome): (r: Saved)
    ensures w == Written ==> r.returned == Some(links) && r.disk == Object(links)
    ensures w == WriteFailed ==> r.returned.None? && r.disk == disk
  {
    match w
    case Written => Saved(Some(links), Write(disk, links, w))
    case WriteFailed => Saved(None, Write(disk, links, w))
  }

  /** At the level of the abstract document, a successful save followed by a
      load gives back the saved table and leaves storage as written. */
  lemma {:induction false} SaveThenLoad(links: Links, disk: Document)
    ensures LoadLinks(SaveLinks(links, disk, Written).disk) == Loaded(links, Object(links))
  {
  }

}

=== FILE: text.dfy ===
/** The string primitives the request handlers lean on: ECMAScript's
    `String.prototype.trim` and the ASCII case folding of a non-Unicode
    regular expression carrying the `i` flag. */
module Text {

  /** The WhiteSpace and LineTerminator code points that `trim` removes. */
  predicate IsJsWhitespace(c: char) {
    || c == '\t' || c == '\n' || c == '\U{000B}' || c == '\U{000C}' || c == '\r'
    || c == ' ' || c == '\U{00A0}' || c == '\U{1680}'
    || ('\U{2000}' <= c <= '\U{200A}')
    || c == '\U{2028}' || c == '\U{2029}' || c == '\U{202F}' || c == '\U{205F}'
    || c == '\U{3000}' || c == '\U{FEFF}'
  }

  /** Number of whitespace characters at the front of `s`. */
  function LeadingWs(s: string): (n: nat)
    ensures n <= |s|
    ensures forall i :: 0 <= i < n ==> IsJsWhitespace(s[i])
    ensures n < |s| ==> !IsJsWhitespace(s[n])
  {
    if |s| > 0 && IsJsWhitespace(s[0]) then 1 + LeadingWs(s[1..]) else 0
  }

  /** Number of whitespace characters at the back of `s`. */
  function TrailingWs(s: string): (n: nat)
    ensures n <= |s|
    ensures forall i :: |s| - n <= i < |s| ==> IsJsWhitespace(s[i])
    ensures n < |s| ==> !IsJsWhitespace(s[|s| - n - 1])
  {
    if |s| > 0 && IsJsWhitespace(s[|s| - 1]) then 1 + TrailingWs(s[..|s| - 1]) else 0
  }

  /** `s.trim()`: the longest infix of `s` that neither starts nor ends with
      whitespace, everything cut away on either side being whitespace. */
  function Trim(s: string): (r: string)
    ensures LeadingWs(s) + |r| <= |s|
    ensures r == s[LeadingWs(s) .. LeadingWs(s) + |r|]
    ensures forall i :: LeadingWs(s) + |r| <= i < |s| ==> IsJsWhitespace(s[i])
    ensures r != [] ==> !IsJsWhitespace(r[0]) && !IsJsWhitespace(r[|r| - 1])
    ensures r == [] <==> forall i :: 0 <= i < |s| ==> IsJsWhitespace(s[i])
  {
    var rest := s[LeadingWs(s)..];
    rest[..|rest| - TrailingWs(rest)]
  }

  /** Trimming twice is trimming once. */
  lemma {:induction false} TrimIdempotent(s: string)
    ensures Trim(Trim(s)) == Trim(s)
  {
    var r := Trim(s);
    if r != [] {
      assert LeadingWs(r) == 0;
      assert TrailingWs(r) == 0;
    }
  }

  /** A non-empty string that neither starts nor ends with whitespace trims
      to itself. */
  lemma TrimUnchanged(s: string)
    requires s != [] && !IsJsWhitespace(s[0]) && !IsJsWhitespace(s[|s| - 1])
    ensures Trim(s) == s
  {
    assert LeadingWs(s) == 0;
    assert TrailingWs(s) == 0;
  }

  /** Lower-cases an ASCII letter and leaves every other character alone, as
      the case-insensitive comparison of a non-Unicode regular expression does
      (no non-ASCII character folds onto an ASCII one there). */
  function LowerAscii(c: char): char {
    if 'A' <= c <= 'Z' then (c as int + 32) as char else c
  }

  /** `s` begins with the lower-case literal `lit`, ASCII letters compared
      without regard to case. */
  predicate StartsWithIgnoringCase(s: string, lit: string) {
    |lit| <= |s| && forall i :: 0 <= i < |lit| ==> LowerAscii(s[i]) == lit[i]
  }

}

=== FILE: wrappers.dfy ===
/** The absent-or-present value used for JavaScript's `null`/`undefined` results. */
module Wrappers {

  datatype Option<+T> = None | Some(value: T)

}
